=== FILE: README.md ===
# Lugar partisanship charts — a Dafny model

The repository draws, for each Congress and each chamber, one bar per
legislator. Each bar's width is proportional to the legislator's absolute
bipartisanship score, and a zero line is drawn right after the bar of the
first record with a negative score. An info box shows the majority party with
both parties' seat counts, the majority's first, and the summed score of each
party. The data comes from a
scraper. It reads score tables from the Lugar Center's pages and turns them
into a list of sessions: one per metadata entry (both chambers), then one per
table of the historic senate page, numbered back from the 112th Congress.

This project models the data logic of both halves:

- `wrappers.dfy` — `Option`, for `undefined`/`null`/optional properties and `??`.
- `scraper.dfy` (module `Scraper`, for `src/scripts/scraper.ts`):
  - the `Score`, `SessionMeta` and `Session` records;
  - `parseTableData` as the nested-loop method `ParseTableData`, proved equal
    to the reference definition `TableRecords`;
  - the session-list construction of `scrape` as `BuildSessions`. Its
    post-decremented counters are proved to give the closed form
    `HistoricSession` (session 112 - k, years 2011 - 2k to 2012 - 2k).
- `session_graph.dfy` (module `SessionGraph`, for
  `src/components/SessionGraph.tsx`):
  - `getAggregates` as the loop method `GetAggregates`, proved against
    prefix-recursive reference sums and counts;
  - `getWhiteHouseParty`, `getPartyColor`, `distDescription` and the
    `dataSpace` computation;
  - the `scores.map` render loop as `RenderBars`. It computes each bar's ratio
    and width, and the one-shot zero-line flag.
  - `Render` puts these together the way the component does.

Scores are `real`. `parseInt` and `parseFloat` are parameters (the record
`NumberParsers`) and are never interpreted. Page fetching is also a parameter:
a function from URL to table for the single-table pages, and the list of
tables of the historic page.

The party text of a record stays a `string`. The parser casts cell 13j+4
unchecked, and the aggregation counts everything that is not exactly `"R"` as
D. The majority and the White House party are the two-valued `Party`, so the
majority is never null.

The code has no guard for a zero score space, and `|score| / 0` is NaN in
JavaScript. So `RenderBars` requires a non-zero score space whenever there is a
record to divide for. `Render` states the same thing as "some score is
non-zero".

## Model

| member | source | states |
|---|---|---|
| `SessionGraph.GetAggregates` | src/components/SessionGraph.tsx:139-165 | one pass gives the score space (sum of absolute scores), the per-party counts and sums, and the majority; counts add up to the number of records, the two sums to the sum of all scores, the score space is non-negative and is zero exactly when every score is zero (or there is none) |
| `SessionGraph.CountsCoverAll` | src/components/SessionGraph.tsx:146-155 | every record is counted as R or, through the else branch, as D: rCount + dCount is the number of records |
| `SessionGraph.SumsCoverAll` | src/components/SessionGraph.tsx:148-154 | rSum (scores of "R" records) plus dSum (scores of all other records) is the sum of all scores |
| `SessionGraph.ScoreSpaceNonNegative` | src/components/SessionGraph.tsx:140-147 | the accumulated score space is never negative |
| `SessionGraph.ScoreSpaceZeroIff` | src/components/SessionGraph.tsx:140-147 | the score space is 0 if and only if every score is 0, the empty list included |
| `SessionGraph.ScoreWithinScoreSpace` | src/components/SessionGraph.tsx:147 | no record's absolute score exceeds the score space |
| `SessionGraph.Majority` | src/components/SessionGraph.tsx:157-162 | the majority has at least as many members as the other party, so the strictly larger party wins; a tie, an empty chamber included, goes to the White House party of the start year |
| `SessionGraph.WhiteHouseParty` | src/components/SessionGraph.tsx:171-178 | the party is D exactly in the Clinton, Obama and Biden years (1993-2000, 2009-2016, from 2021) and R in every other year, before 1993 included |
| `SessionGraph.WhiteHousePartyByAdministration` | src/components/SessionGraph.tsx:170-178 | the year table agrees with the independent list of administrations, taking the party of the latest one begun by that year and R before 1993 |
| `SessionGraph.PartyColor` | src/components/SessionGraph.tsx:167-168 | the colour is the red or the blue variable, red exactly for the party text "R" |
| `SessionGraph.BarColorMatchesCountedParty` | src/components/SessionGraph.tsx:62 | a bar has the colour of the badge of the party its record is counted under |
| `SessionGraph.DistDescription` | src/components/SessionGraph.tsx:84-85 | the label lists the two counts, the majority party's count first |
| `SessionGraph.LabelLeadsWithLarger` | src/components/SessionGraph.tsx:84-85 | with the majority the aggregation picks, the first count of the label is never the smaller one |
| `SessionGraph.DataSpace` | src/components/SessionGraph.tsx:24-28 | the data space plus one pixel of bar margin per record plus the zero line's 10 pixels is the container width (`width ?? 0`); it is negative in a container narrower than one pixel per record plus 10 |
| `SessionGraph.RenderBars` | src/components/SessionGraph.tsx:46-68 | one bar per record, in order: ratio abs(score)/scoreSpace, width ratio times data space, the party colour; the zero-line flag is set exactly on the first record with a negative score, so on at most one bar, on some bar exactly when a score is negative, and on bar 0 when record 0 is negative |
| `SessionGraph.SumOfShares` | src/components/SessionGraph.tsx:47 | summed over the bars, the ratios give the records' score space over the divisor, and the widths give that sum times the data space |
| `SessionGraph.SharesAddUp` | src/components/SessionGraph.tsx:46-57 | when the divisor is the records' own score space, each ratio lies in [0, 1], the ratios sum to 1 and the bar widths sum to the data space |
| `SessionGraph.Render` | src/components/SessionGraph.tsx:11-71 | the chart's aggregates and bars as the component computes them: each bar's ratio and width as its record's share of the data space, and its colour the party colour of its record; a zero line is drawn exactly when some score is negative; then the computed bar widths, their margins and the zero line add up to the container width, and otherwise the bars and margins add up to the container width less the 10 px kept for the zero line |
| `Scraper.ParseTableData` | src/scripts/scraper.ts:209-235 | the nested loops with the early break yield exactly the reference records of the table |
| `Scraper.RowRecordsShape` | src/scripts/scraper.ts:215-228 | a row of n cells yields exactly n/13 records (rounded down; none below 13 cells), record j taking number, first name, last name, state, party and score from cells 13j to 13j+5 |
| `Scraper.RowRecordsIgnoreSortedCopy` | src/scripts/scraper.ts:215-228 | cells 13j+6 to 13j+12 (the sorted copy) are never read: rows that agree elsewhere give the same records |
| `Scraper.ShortTableHasNoRecords` | src/scripts/scraper.ts:212 | an empty table, or one with only its header row, yields no record |
| `Scraper.TableRecordsIgnoreHeader` | src/scripts/scraper.ts:212-213 | row 0 is never read: changing the header row changes nothing |
| `Scraper.TableRecordsLength` | src/scripts/scraper.ts:210-232 | the number of records is the sum, over rows 1 to the end, of each row's length divided by 13 |
| `Scraper.TableRecordsAppendRow` | src/scripts/scraper.ts:212-232 | output is in row order: a further row's records come after the records of the rows before it |
| `Scraper.BuildSessions` | src/scripts/scraper.ts:108-147 | the sessions are the metadata sessions in order, then one per historic table: length metas + tables; metadata sessions carry both chambers and both URLs, and have no end year exactly when the metadata has none; historic session k is number 112 - k from 2011 - 2k to 2012 - 2k, so each is two years long and ends the year before the previous one starts; it carries only senate scores and the senate URL |

## Left out

- Browser automation is not modelled: launching the browser, loading pages and the DOM extraction in `scrapeSingleTablePage`/`scrapeManyTablePage`. It is external I/O. Its results enter as the parameters `singleTablePage` and `allTableData`.
- The errors thrown when a page has no score table are not modelled. They are I/O failures, and `BuildSessions` assumes every page was read.
- The JSON file write and the top-level `scrape()` call are left out (file-system I/O).
- The module-level `sessions` array is modelled as the list `BuildSessions` builds from empty. `scrape` runs once per process, so nothing else is ever in it.
- `parseInt` and `parseFloat` are uninterpreted parameters. The NaN they give on malformed cells is not modelled.
- The constants of the `sessionMetas` table are left out, because they are data. The table is a parameter. The base URL and the historic page's slug are kept.
- Scores are exact reals, not IEEE doubles. Rounding in sums and ratios is not modelled, and neither is `toFixed(2)`.
- `SessionGraph.RenderBars`: requires a non-zero score space when there is at least one record. The source divides by a zero score space and gets NaN, which this model has no value for.
- `SessionGraph.Render`: requires some non-zero score in a non-empty list, for the same reason.
- `SessionGraph.Render`: the fill equations are about the computed bar widths. In a container narrower than one pixel per record plus 10 px the data space, and so every bar width, is negative; the browser draws such a `calc` width as 0 px and the chart overflows its container, which the model does not capture.
- `SessionGraph.DataSpace`: the width is an `Option` only to mirror the `?? 0` of the component; the container hook always yields a number (0 before it has measured).
- `SessionGraph.DistDescription`: returns the two counts in label order. It does not model their decimal rendering into the label string.
- React is not modelled: JSX, styles, `useMemo`/`useRef`, and the `InfoBox`, `PartyBadge` and `ZeroLine` markup. A bar's pixel width is taken as the value of its CSS `calc(ratio * dataSpace px)`, and flexbox layout is not modelled.
- The zero line is placed after the first negative score in the records' given order, as the code does. Nothing checks that the records are sorted by descending score.
- `useWindow.tsx`, `ordinalizeNumber.ts` and `App.tsx` are not part of this model. They hold resize plumbing, a wrapper over `Intl.PluralRules` and page composition.

=== FILE: scraper.dfy ===
/**
 * The data side of the scraper: turning a scraped table of cell texts into
 * score records, and assembling the list of sessions from the per-session
 * metadata and the historic aggregate page.  The browser that fetches the
 * pages is a parameter (a function from URL to table), and so are the two
 * number parsers, which stay uninterpreted.
 */
module Scraper {
  import opened Wrappers

  /** One legislator's row of a scorecard. */
  datatype Score = Score(
    number: int,
    firstName: string,
    lastName: string,
    stateAbbreviation: string,
    // the parser casts the cell text without checking it is "R" or "D"
    partyAbbreviation: string,
    score: real)

  datatype SessionMeta = SessionMeta(
    sessionNo: int,
    startYear: int,
    endYear: Option<int>,
    senateSlug: string,
    houseSlug: string)

  datatype Session = Session(
    startYear: int,
    endYear: Option<int>,
    sessionNo: int,
    houseScores: Option<seq<Score>>,
    senateScores: Option<seq<Score>>,
    houseUrl: Option<string>,
    senateUrl: Option<string>)

  /** The cell texts of one table row, and a table as its rows. */
  type Row = seq<string>
  type Table = seq<Row>

  /** `parseInt(_, 10)` and `parseFloat`, whose behaviour is not modelled. */
  datatype NumberParsers = NumberParsers(parseInt: string -> int, parseFloat: string -> real)

  /** Cells per record group: six fields, then the same data sorted again. */
  const Stride: nat := 13

  const BaseUrl: string := "https://www.thelugarcenter.org/"
  const SenateHistoricAggregateSlug: string := "ourwork-47.html"

  // Historic sessions start at the 112th Congress (2011-2012) and go back.
  const FirstHistoricSessionNo: int := 112
  const FirstHistoricEndYear: int := 2012

  /** The record read from the six cells starting at `at`. */
  function RecordAt(row: Row, p: NumberParsers, at: nat): (s: Score)
    requires at + 5 < |row|
  {
    Score(p.parseInt(row[at]), row[at + 1], row[at + 2], row[at + 3], row[at + 4],
          p.parseFloat(row[at + 5]))
  }

  /** The records of the first `k` full strides of a row. */
  function Strides(row: Row, p: NumberParsers, k: nat): seq<Score>
    requires Stride * k <= |row|
  {
    if k == 0 then [] else Strides(row, p, k - 1) + [RecordAt(row, p, Stride * (k - 1))]
  }

  /** The records of a row: one per stride of 13 cells that fits completely. */
  function RowRecords(row: Row, p: NumberParsers): seq<Score> {
    Strides(row, p, |row| / Stride)
  }

  /** The records of rows 1 .. n-1 of a table, row after row (row 0 is the header). */
  function RowsRecords(table: Table, p: NumberParsers, n: nat): seq<Score>
    requires n <= |table|
  {
    if n <= 1 then [] else RowsRecords(table, p, n - 1) + RowRecords(table[n - 1], p)
  }

  /** What parsing a whole table yields. */
  function TableRecords(table: Table, p: NumberParsers): seq<Score> {
    RowsRecords(table, p, |table|)
  }

  /** The number of records rows 1 .. n-1 hold: the sum of their lengths divided by 13. */
  function RecordCount(table: Table, n: nat): nat
    requires n <= |table|
  {
    if n <= 1 then 0 else RecordCount(table, n - 1) + |table[n - 1]| / Stride
  }

  /**
   * Converts a scraped table into score records: the header row is skipped,
   * each other row is walked in strides of 13 cells and a stride is read only
   * when all of its 13 cells are present.
   */
  method ParseTableData(tableData: Table, p: NumberParsers) returns (result: seq<Score>)
    ensures result == TableRecords(tableData, p)
  {
    result := [];
    var r := 1;
    while r < |tableData|
      invariant 1 <= r
      invariant r <= |tableData| || |tableData| == 0
      invariant result == RowsRecords(tableData, p, if r <= |tableData| then r else 0)
    {
      var row := tableData[r];
      ghost var before := result;
      var i := 0;
      ghost var k: nat := 0;
      while i < |row|
        invariant i == Stride * k && i <= |row|
        invariant result == before + Strides(row, p, k)
      {
        if i + 12 >= |row| {
          break;
        }
        result := result + [RecordAt(row, p, i)];
        i, k := i + 13, k + 1;
      }
      assert k == |row| / Stride;
      r := r + 1;
    }
  }

  lemma {:induction false} StridesShape(row: Row, p: NumberParsers, k: nat)
    requires Stride * k <= |row|
    ensures |Strides(row, p, k)| == k
    ensures forall j :: 0 <= j < k ==> Strides(row, p, k)[j] == RecordAt(row, p, Stride * j)
  {
    if k > 0 {
      StridesShape(row, p, k - 1);
    }
  }

  /**
   * A row of n cells gives exactly n / 13 records (none when it has fewer than
   * 13 cells), and record j is read, field by field, from cells 13j .. 13j+5.
   */
  lemma RowRecordsShape(row: Row, p: NumberParsers)
    ensures |RowRecords(row, p)| == |row| / Stride
    ensures |row| < Stride ==> RowRecords(row, p) == []
    ensures forall j :: 0 <= j < |row| / Stride ==>
      Stride * j + 12 < |row| &&
      RowRecords(row, p)[j] == Score(p.parseInt(row[Stride * j]), row[Stride * j + 1], row[Stride * j + 2],
                                     row[Stride * j + 3], row[Stride * j + 4], p.parseFloat(row[Stride * j + 5]))
  {
    StridesShape(row, p, |row| / Stride);
  }

  lemma {:induction false} StridesIgnoreSortedCopy(row1: Row, row2: Row, p: NumberParsers, k: nat)
    requires |row1| == |row2| && Stride * k <= |row1|
    requires forall c :: 0 <= c < |row1| && c % Stride < 6 ==> row1[c] == row2[c]
    ensures Strides(row1, p, k) == Strides(row2, p, k)
  {
    if k > 0 {
      StridesIgnoreSortedCopy(row1, row2, p, k - 1);
      var at := Stride * (k - 1);
      forall c | at <= c < at + 6 ensures row1[c] == row2[c] {
        assert c % Stride == c - at;
      }
    }
  }

  /** Cells 13j+6 .. 13j+12 (the alphabetically sorted copy) are never read. */
  lemma RowRecordsIgnoreSortedCopy(row1: Row, row2: Row, p: NumberParsers)
    requires |row1| == |row2|
    requires forall c :: 0 <= c < |row1| && c % Stride < 6 ==> row1[c] == row2[c]
    ensures RowRecords(row1, p) == RowRecords(row2, p)
  {
    StridesIgnoreSortedCopy(row1, row2, p, |row1| / Stride);
  }

  lemma {:induction false} RowsRecordsLength(table: Table, p: NumberParsers, n: nat)
    requires n <= |table|
    ensures |RowsRecords(table, p, n)| == RecordCount(table, n)
  {
    if n > 1 {
      RowsRecordsLength(table, p, n - 1);
      RowRecordsShape(table[n - 1], p);
    }
  }

  /** The total number of records is the sum, over rows 1 .. end, of their length divided by 13. */
  lemma TableRecordsLength(table: Table, p: NumberParsers)
    ensures |TableRecords(table, p)| == RecordCount(table, |table|)
  {
    RowsRecordsLength(table, p, |table|);
  }

  lemma {:induction false} RowsRecordsIgnoreHeader(t1: Table, t2: Table, p: NumberParsers, n: nat)
    requires 1 <= n <= |t1| == |t2| && t1[1..] == t2[1..]
    ensures RowsRecords(t1, p, n) == RowsRecords(t2, p, n)
  {
    if n > 1 {
      RowsRecordsIgnoreHeader(t1, t2, p, n - 1);
      assert t1[n - 1] == t1[1..][n - 2] == t2[n - 1];
    }
  }

  /** An empty table, or one holding only its header row, yields no record. */
  lemma ShortTableHasNoRecords(table: Table, p: NumberParsers)
    requires |table| <= 1
    ensures TableRecords(table, p) == []
  {
  }

  /** Row 0 is never read: replacing the header row changes nothing. */
  lemma TableRecordsIgnoreHeader(t1: Table, t2: Table, p: NumberParsers)
    requires |t1| == |t2| >= 1 && t1[1..] == t2[1..]
    ensures TableRecords(t1, p) == TableRecords(t2, p)
  {
    RowsRecordsIgnoreHeader(t1, t2, p, |t1|);
  }

  /**
   * Output order is row order: the records of a table followed by one more
   * row are the table's records followed by that row's records.
   */
  lemma TableRecordsAppendRow(table: Table, row: Row, p: NumberParsers)
    requires |table| >= 1
    ensures TableRecords(table + [row], p) == TableRecords(table, p) + RowRecords(row, p)
  {
    var t := table + [row];
    assert t[|t| - 1] == row;
    RowsRecordsPrefix(table, t, p, |table|);
  }

  lemma {:induction false} RowsRecordsPrefix(t1: Table, t2: Table, p: NumberParsers, n: nat)
    requires n <= |t1| <= |t2| && t1 == t2[..|t1|]
    ensures RowsRecords(t1, p, n) == RowsRecords(t2, p, n)
  {
    if n > 1 {
      RowsRecordsPrefix(t1, t2, p, n - 1);
      assert t1[n - 1] == t2[n - 1];
    }
  }

  /** The session built for one metadata entry: both chambers, both URLs. */
  function MetaSession(m: SessionMeta, singleTablePage: string -> Table, p: NumberParsers): Session {
    var senateUrl := BaseUrl + m.senateSlug;
    var houseUrl := BaseUrl + m.houseSlug;
    Session(m.startYear, m.endYear, m.sessionNo,
            Some(TableRecords(singleTablePage(houseUrl), p)),
            Some(TableRecords(singleTablePage(senateUrl), p)),
            Some(houseUrl), Some(senateUrl))
  }

  /** The session for the k-th table (from 0) of the historic aggregate page, in closed form. */
  function HistoricSession(k: nat, tableData: Table, p: NumberParsers): Session {
    Session(2011 - 2 * k, Some(2012 - 2 * k), 112 - k,
            None, Some(TableRecords(tableData, p)),
            None, Some(BaseUrl + SenateHistoricAggregateSlug))
  }

  /**
   * The data flow of `scrape`: one session per metadata entry, in order,
   * then one per table of the historic aggregate page, numbered backwards
   * from the 112th Congress by post-decremented counters.
   */
  method BuildSessions(sessionMetas: seq<SessionMeta>, singleTablePage: string -> Table,
                       allTableData: seq<Table>, p: NumberParsers)
    returns (sessions: seq<Session>)
    ensures |sessions| == |sessionMetas| + |allTableData|
    ensures forall i :: 0 <= i < |sessionMetas| ==>
      sessions[i] == MetaSession(sessionMetas[i], singleTablePage, p)
    ensures forall k :: 0 <= k < |allTableData| ==>
      sessions[|sessionMetas| + k] == HistoricSession(k, allTableData[k], p)
    // metadata sessions: both chambers, end year absent exactly when the metadata has none
    ensures forall i :: 0 <= i < |sessionMetas| ==>
      sessions[i].houseScores.Some? && sessions[i].senateScores.Some? &&
      sessions[i].houseUrl.Some? && sessions[i].senateUrl.Some? &&
      (sessions[i].endYear.None? <==> sessionMetas[i].endYear.None?)
    // historic sessions: senate only, two-year sessions, each ending the year before the previous one starts
    ensures forall i :: |sessionMetas| <= i < |sessions| ==>
      sessions[i].houseScores.None? && sessions[i].houseUrl.None? &&
      sessions[i].senateScores.Some? && sessions[i].senateUrl.Some? &&
      sessions[i].endYear == Some(sessions[i].startYear + 1) &&
      sessions[i].sessionNo == 112 - (i - |sessionMetas|)
    ensures forall i :: |sessionMetas| <= i < |sessions| - 1 ==>
      sessions[i + 1].endYear == Some(sessions[i].startYear - 1) &&
      sessions[i + 1].sessionNo == sessions[i].sessionNo - 1
  {
    sessions := [];
    for i := 0 to |sessionMetas|
      invariant |sessions| == i
      invariant forall j :: 0 <= j < i ==> sessions[j] == MetaSession(sessionMetas[j], singleTablePage, p)
    {
      var sessionMeta := sessionMetas[i];
      var senateUrl := BaseUrl + sessionMeta.senateSlug;
      var houseUrl := BaseUrl + sessionMeta.houseSlug;
      var senateTableData := singleTablePage(senateUrl);
      var houseTableData := singleTablePage(houseUrl);
      var senateScores := ParseTableData(senateTableData, p);
      var houseScores := ParseTableData(houseTableData, p);
      sessions := sessions + [Session(sessionMeta.startYear, sessionMeta.endYear, sessionMeta.sessionNo,
                                      Some(houseScores), Some(senateScores),
                                      Some(houseUrl), Some(senateUrl))];
    }

    var senateUrl := BaseUrl + SenateHistoricAggregateSlug;
    var sessionNo := FirstHistoricSessionNo;
    var year := FirstHistoricEndYear;
    for k := 0 to |allTableData|
      invariant |sessions| == |sessionMetas| + k
      invariant sessionNo == 112 - k && year == 2012 - 2 * k
      invariant forall j :: 0 <= j < |sessionMetas| ==>
        sessions[j] == MetaSession(sessionMetas[j], singleTablePage, p)
      invariant forall j :: 0 <= j < k ==>
        sessions[|sessionMetas| + j] == HistoricSession(j, allTableData[j], p)
    {
      var senateScores := ParseTableData(allTableData[k], p);
      // each counter is read, then decremented: end year, start year, session number
      var endYear := year;
      year := year - 1;
      var startYear := year;
      year := year - 1;
      var no := sessionNo;
      sessionNo := sessionNo - 1;
      sessions := sessions + [Session(startYear, Some(endYear), no, None, Some(senateScores),
                                      None, Some(senateUrl))];
    }
    forall i | |sessionMetas| <= i < |sessions|
      ensures sessions[i] == HistoricSession(i - |sessionMetas|, allTableData[i - |sessionMetas|], p)
    {
    }
  }
}

=== FILE: session_graph.dfy ===
/**
 * The rules behind one chamber's bar chart: the per-party aggregation of the
 * score records, the majority party (with the White House tie-break), the
 * width available to the bars, each bar's share of it, and where the zero
 * line goes.  Markup and styling are left out; only the numbers and flags
 * that the markup is built from are modelled.
 */
module SessionGraph {
  import opened Wrappers
  import opened Scraper

  datatype Party = R | D

  /** What the chart shows about a chamber as a whole. */
  datatype Aggregates = Aggregates(
    scoreSpace: real,
    dCount: nat,
    rCount: nat,
    dSum: real,
    rSum: real,
    majority: Party)

  /** One bar: its share of the data space, its width in pixels, its colour,
      and whether the zero line is painted right after it. */
  datatype Bar = Bar(ratio: real, width: real, color: string, zeroLine: bool)

  const ZeroLineWidth: real := 10.0
  /** Every bar has a right margin of one pixel. */
  const BarMargin: real := 1.0

  const Red: string := "var(--color-red)"
  const Blue: string := "var(--color-blue)"

  function Abs(x: real): real {
    if x < 0.0 then -x else x
  }

  /** The aggregation counts a record as R exactly when its party text is "R". */
  predicate CountedAsR(s: Score) {
    s.partyAbbreviation == "R"
  }

  // Reference definitions of the aggregates, each over a prefix of the records.

  function ScoreSpace(s: seq<Score>): real {
    if s == [] then 0.0 else ScoreSpace(s[..|s| - 1]) + Abs(s[|s| - 1].score)
  }

  function RCount(s: seq<Score>): nat {
    if s == [] then 0 else RCount(s[..|s| - 1]) + (if CountedAsR(s[|s| - 1]) then 1 else 0)
  }

  function DCount(s: seq<Score>): nat {
    if s == [] then 0 else DCount(s[..|s| - 1]) + (if CountedAsR(s[|s| - 1]) then 0 else 1)
  }

  function RSum(s: seq<Score>): real {
    if s == [] then 0.0 else RSum(s[..|s| - 1]) + (if CountedAsR(s[|s| - 1]) then s[|s| - 1].score else 0.0)
  }

  function DSum(s: seq<Score>): real {
    if s == [] then 0.0 else DSum(s[..|s| - 1]) + (if CountedAsR(s[|s| - 1]) then 0.0 else s[|s| - 1].score)
  }

  function ScoreSum(s: seq<Score>): real {
    if s == [] then 0.0 else ScoreSum(s[..|s| - 1]) + s[|s| - 1].score
  }

  /** Every record is counted exactly once: whatever is not "R" is counted as D. */
  lemma {:induction false} CountsCoverAll(s: seq<Score>)
    ensures RCount(s) + DCount(s) == |s|
  {
    if s != [] {
      CountsCoverAll(s[..|s| - 1]);
    }
  }

  /** The two party sums together are the sum of all scores. */
  lemma {:induction false} SumsCoverAll(s: seq<Score>)
    ensures RSum(s) + DSum(s) == ScoreSum(s)
  {
    if s != [] {
      SumsCoverAll(s[..|s| - 1]);
    }
  }

  lemma {:induction false} ScoreSpaceNonNegative(s: seq<Score>)
    ensures ScoreSpace(s) >= 0.0
  {
    if s != [] {
      ScoreSpaceNonNegative(s[..|s| - 1]);
    }
  }

  /** The score space is zero exactly when there is no record with a non-zero score. */
  lemma {:induction false} ScoreSpaceZeroIff(s: seq<Score>)
    ensures ScoreSpace(s) == 0.0 <==> forall i :: 0 <= i < |s| ==> s[i].score == 0.0
  {
    if s != [] {
      var init := s[..|s| - 1];
      ScoreSpaceZeroIff(init);
      ScoreSpaceNonNegative(init);
      assert forall i :: 0 <= i < |init| ==> init[i] == s[i];
    }
  }

  /** No single record outweighs the whole score space. */
  lemma {:induction false} ScoreWithinScoreSpace(s: seq<Score>, i: nat)
    requires i < |s|
    ensures Abs(s[i].score) <= ScoreSpace(s)
  {
    var init := s[..|s| - 1];
    ScoreSpaceNonNegative(init);
    if i < |s| - 1 {
      ScoreWithinScoreSpace(init, i);
      assert init[i] == s[i];
    }
  }

  /**
   * `getAggregates`: one pass over the records accumulating the score space
   * and a count and a sum per party, then the majority party.
   */
  method GetAggregates(scores: seq<Score>, startYear: int) returns (agg: Aggregates)
    ensures agg.scoreSpace == ScoreSpace(scores)
    ensures agg.rCount == RCount(scores) && agg.dCount == DCount(scores)
    ensures agg.rSum == RSum(scores) && agg.dSum == DSum(scores)
    ensures agg.majority == Majority(agg.rCount, agg.dCount, startYear)
    ensures agg.rCount + agg.dCount == |scores|
    ensures agg.rSum + agg.dSum == ScoreSum(scores)
    ensures agg.scoreSpace >= 0.0
    ensures agg.scoreSpace == 0.0 <==> forall i :: 0 <= i < |scores| ==> scores[i].score == 0.0
  {
    var scoreSpace := 0.0;
    var dCount := 0;
    var rCount := 0;
    var dSum := 0.0;
    var rSum := 0.0;

    for i := 0 to |scores|
      invariant scoreSpace == ScoreSpace(scores[..i])
      invariant rCount == RCount(scores[..i]) && dCount == DCount(scores[..i])
      invariant rSum == RSum(scores[..i]) && dSum == DSum(scores[..i])
    {
      var score := scores[i];
      assert scores[..i + 1][..i] == scores[..i];
      scoreSpace := scoreSpace + Abs(score.score);
      if score.partyAbbreviation == "R" {
        rCount := rCount + 1;
        rSum := rSum + score.score;
      } else {
        dCount := dCount + 1;
        dSum := dSum + score.score;
      }
    }
    assert scores[..|scores|] == scores;

    var majority := if dCount > rCount then D
                    else if rCount > dCount then R
                    else WhiteHouseParty(startYear);
    agg := Aggregates(scoreSpace, dCount, rCount, dSum, rSum, majority);

    CountsCoverAll(scores);
    SumsCoverAll(scores);
    ScoreSpaceNonNegative(scores);
    ScoreSpaceZeroIff(scores);
  }

  /**
   * The majority party: the party with more members, and on a tie (an empty
   * chamber included) the party holding the White House in `year`.
   */
  function Majority(rCount: nat, dCount: nat, year: int): (m: Party)
    ensures if m == R then rCount >= dCount else dCount >= rCount
    ensures rCount == dCount ==> m == WhiteHouseParty(year)
  {
    if dCount > rCount then D
    else if rCount > dCount then R
    else WhiteHouseParty(year)
  }

  /** The administrations the data set covers, as (first year, party), in order. */
  const Administrations: seq<(int, Party)> :=
    [(1993, D), (2001, R), (2009, D), (2017, R), (2021, D)]

  /** The party of the latest administration in `terms` that began by `year`,
      or `before` when none had. */
  function PartyInOffice(terms: seq<(int, Party)>, year: int, before: Party): Party {
    if terms == [] then before
    else if terms[|terms| - 1].0 <= year then terms[|terms| - 1].1
    else PartyInOffice(terms[..|terms| - 1], year, before)
  }

  /**
   * `getWhiteHouseParty`: the President's party in a given year.  The D years
   * are those of the Clinton (1993-2000), Obama (2009-2016) and Biden (from
   * 2021) administrations; every other year, earlier ones included, is R.
   */
  function WhiteHouseParty(year: int): (p: Party)
    ensures p == D <==> 1993 <= year < 2001 || 2009 <= year < 2017 || 2021 <= year
  {
    if year >= 2021 then D
    else if year >= 2017 then R
    else if year >= 2009 then D
    else if year >= 2001 then R
    else if year >= 1993 then D
    else R
  }

  /** The year table agrees with the list of administrations, R before 1993. */
  lemma WhiteHousePartyByAdministration(year: int)
    ensures WhiteHouseParty(year) == PartyInOffice(Administrations, year, R)
  {
    var t4 := [(1993, D), (2001, R), (2009, D), (2017, R)];
    var t3 := [(1993, D), (2001, R), (2009, D)];
    var t2 := [(1993, D), (2001, R)];
    var t1 := [(1993, D)];
    assert Administrations[..4] == t4 && t4[..3] == t3 && t3[..2] == t2 && t2[..1] == t1 && t1[..0] == [];
    assert PartyInOffice(Administrations, year, R) == if 2021 <= year then D else PartyInOffice(t4, year, R);
    assert PartyInOffice(t4, year, R) == if 2017 <= year then R else PartyInOffice(t3, year, R);
    assert PartyInOffice(t3, year, R) == if 2009 <= year then D else PartyInOffice(t2, year, R);
    assert PartyInOffice(t2, year, R) == if 2001 <= year then R else PartyInOffice(t1, year, R);
    assert PartyInOffice(t1, year, R) == if 1993 <= year then D else PartyInOffice([], year, R);
  }

  /** `getPartyColor`: a bar or badge is red for "R" and blue for any other party text. */
  function PartyColor(abbr: string): (c: string)
    ensures c == Red || c == Blue
    ensures c == Red <==> abbr == "R"
  {
    if abbr == "R" then Red else Blue
  }

  /** The background colour of a party badge in the info box (SessionGraph.tsx:121). */
  function BadgeColor(p: Party): string {
    PartyColor(if p == R then "R" else "D")
  }

  /** A bar is drawn in the colour of the badge of the party its record is counted under. */
  lemma BarColorMatchesCountedParty(s: Score)
    ensures PartyColor(s.partyAbbreviation) == BadgeColor(if CountedAsR(s) then R else D)
  {
  }

  /**
   * The counts in the majority label, majority party first: `rCount - dCount`
   * when the majority is R, `dCount - rCount` otherwise.
   */
  function DistDescription(majority: Party, rCount: nat, dCount: nat): (counts: (nat, nat))
    ensures multiset{counts.0, counts.1} == multiset{rCount, dCount}
    ensures counts.0 == (if majority == R then rCount else dCount)
  {
    if majority == R then (rCount, dCount) else (dCount, rCount)
  }

  /** With the majority the aggregation picks, the label never leads with the smaller count. */
  lemma LabelLeadsWithLarger(rCount: nat, dCount: nat, year: int)
    ensures var counts := DistDescription(Majority(rCount, dCount, year), rCount, dCount);
            counts.0 >= counts.1
  {
  }

  /**
   * The pixels left for the bars: the container width less one pixel of
   * margin per bar and the zero line's width.  The container hook reports 0
   * before it has measured, so the width is always a number there; `None`
   * only mirrors the `?? 0` the component applies to it.  The result is
   * negative when the container is narrower than one pixel per bar plus 10.
   */
  function DataSpace(width: Option<real>, count: nat): (space: real)
    ensures space + count as real * BarMargin + ZeroLineWidth == width.GetOr(0.0)
  {
    width.GetOr(0.0) - count as real * BarMargin - ZeroLineWidth
  }

  /** The zero line goes after record i when it is the first record with a negative score. */
  predicate IsFirstNegative(s: seq<Score>, i: nat)
    requires i < |s|
  {
    s[i].score < 0.0 && forall j :: 0 <= j < i ==> s[j].score >= 0.0
  }

  function SumRatios(bars: seq<Bar>): real {
    if bars == [] then 0.0 else SumRatios(bars[..|bars| - 1]) + bars[|bars| - 1].ratio
  }

  function SumWidths(bars: seq<Bar>): real {
    if bars == [] then 0.0 else SumWidths(bars[..|bars| - 1]) + bars[|bars| - 1].width
  }

  /** Bar k takes the share |score k| / scoreSpace, and that share of the data space. */
  predicate SharesOf(scores: seq<Score>, bars: seq<Bar>, scoreSpace: real, dataSpace: real)
    requires |bars| == |scores| && (scores != [] ==> scoreSpace != 0.0)
  {
    forall k :: 0 <= k < |bars| ==>
      bars[k].ratio == Abs(scores[k].score) / scoreSpace && bars[k].width == bars[k].ratio * dataSpace
  }

  // DivideSum, MultiplySum, WholeShare and ShareBounds are proof steps for
  // SumOfShares and SharesAddUp (they hand the solver the real-arithmetic
  // identity it needs at that point), and ExtendShares, ExtendColors and
  // ExtendZeroLines are the one-bar steps of the RenderBars loop; they state
  // nothing about the chart beyond the predicates they extend.

  lemma DivideSum(a: real, b: real, c: real)
    requires c != 0.0
    ensures a / c + b / c == (a + b) / c
  {
  }

  lemma MultiplySum(a: real, b: real, c: real)
    ensures a * c + b * c == (a + b) * c
  {
  }

  /** Summed over the bars, the shares make up ScoreSpace / scoreSpace of the data space. */
  lemma {:induction false} SumOfShares(scores: seq<Score>, bars: seq<Bar>, scoreSpace: real, dataSpace: real)
    requires |bars| == |scores| && scoreSpace != 0.0
    requires SharesOf(scores, bars, scoreSpace, dataSpace)
    ensures SumRatios(bars) == ScoreSpace(scores) / scoreSpace
    ensures SumWidths(bars) == SumRatios(bars) * dataSpace
  {
    if bars != [] {
      var n := |bars| - 1;
      var s0, b0 := scores[..n], bars[..n];
      assert SharesOf(s0, b0, scoreSpace, dataSpace) by {
        forall k | 0 <= k < n ensures b0[k] == bars[k] && s0[k] == scores[k] { }
      }
      SumOfShares(s0, b0, scoreSpace, dataSpace);
      DivideSum(ScoreSpace(s0), Abs(scores[n].score), scoreSpace);
      MultiplySum(SumRatios(b0), bars[n].ratio, dataSpace);
    }
  }

  lemma ExtendShares(scores: seq<Score>, bars: seq<Bar>, i: nat, scoreSpace: real, dataSpace: real,
                      ratio: real, b: Bar)
    requires i < |scores| && |bars| == i && scoreSpace != 0.0
    requires SharesOf(scores[..i], bars, scoreSpace, dataSpace)
    requires ratio == Abs(scores[i].score) / scoreSpace
    requires b.ratio == ratio && b.width == ratio * dataSpace
    ensures SharesOf(scores[..i + 1], bars + [b], scoreSpace, dataSpace)
  {
  }

  /** Each bar is coloured after its record's party text. */
  predicate ColorsOf(scores: seq<Score>, bars: seq<Bar>)
    requires |bars| == |scores|
  {
    forall k :: 0 <= k < |bars| ==> bars[k].color == PartyColor(scores[k].partyAbbreviation)
  }

  lemma ExtendColors(scores: seq<Score>, bars: seq<Bar>, i: nat, b: Bar)
    requires i < |scores| && |bars| == i
    requires ColorsOf(scores[..i], bars)
    requires b.color == PartyColor(scores[i].partyAbbreviation)
    ensures ColorsOf(scores[..i + 1], bars + [b])
  {
  }

  /** The zero-line flag of each bar so far is set exactly on the first negative record. */
  predicate ZeroLinesOf(scores: seq<Score>, bars: seq<Bar>)
    requires |bars| <= |scores|
  {
    forall k :: 0 <= k < |bars| ==> bars[k].zeroLine == IsFirstNegative(scores, k)
  }

  lemma ExtendZeroLines(scores: seq<Score>, bars: seq<Bar>, b: Bar)
    requires |bars| < |scores|
    requires ZeroLinesOf(scores, bars)
    requires b.zeroLine == IsFirstNegative(scores, |bars|)
    ensures ZeroLinesOf(scores, bars + [b])
  {
  }

  /** The whole, as a share of itself, is 1 (a proof step for SharesAddUp). */
  lemma WholeShare(whole: real, dataSpace: real)
    requires whole != 0.0
    ensures whole / whole == 1.0 && 1.0 * dataSpace == dataSpace
  {
  }

  /** A part of a positive whole is a share between 0 and 1 (a proof step for SharesAddUp). */
  lemma ShareBounds(part: real, whole: real)
    requires 0.0 <= part <= whole && whole > 0.0
    ensures 0.0 <= part / whole <= 1.0
  {
  }

  /**
   * The shares sum to ScoreSpace / scoreSpace; when the score space is the
   * records' own, each share lies in [0, 1], the shares sum to 1 and the
   * widths fill the data space.
   */
  lemma {:induction false} SharesAddUp(scores: seq<Score>, bars: seq<Bar>, scoreSpace: real, dataSpace: real)
    requires |bars| == |scores| && (scores != [] ==> scoreSpace != 0.0)
    requires SharesOf(scores, bars, scoreSpace, dataSpace)
    ensures scores != [] ==> SumRatios(bars) == ScoreSpace(scores) / scoreSpace
    ensures SumWidths(bars) == SumRatios(bars) * dataSpace
    ensures scores != [] && scoreSpace == ScoreSpace(scores) ==>
      SumRatios(bars) == 1.0 && SumWidths(bars) == dataSpace &&
      forall i :: 0 <= i < |bars| ==> 0.0 <= bars[i].ratio <= 1.0
  {
    if scores != [] {
      SumOfShares(scores, bars, scoreSpace, dataSpace);
      if scoreSpace == ScoreSpace(scores) {
        WholeShare(scoreSpace, dataSpace);
        assert SumRatios(bars) == 1.0;
        assert SumWidths(bars) == 1.0 * dataSpace;
        forall i | 0 <= i < |bars| ensures 0.0 <= bars[i].ratio <= 1.0 {
          ScoreWithinScoreSpace(scores, i);
          ShareBounds(Abs(scores[i].score), scoreSpace);
        }
      }
    }
  }

  /**
   * The `scores.map` loop of the chart: each bar's ratio is its record's
   * absolute score over the score space and its width that share of the data
   * space; a one-shot flag puts the zero line after the first negative score.
   * Dividing by a zero score space is not defined by the source, so a
   * non-empty list needs a non-zero one.
   */
  method RenderBars(scores: seq<Score>, scoreSpace: real, dataSpace: real) returns (bars: seq<Bar>)
    requires scores != [] ==> scoreSpace != 0.0
    ensures |bars| == |scores|
    ensures SharesOf(scores, bars, scoreSpace, dataSpace)
    ensures ColorsOf(scores, bars)
    // the zero line: after the first negative score, and nowhere else
    ensures forall i :: 0 <= i < |bars| ==> (bars[i].zeroLine <==> IsFirstNegative(scores, i))
    ensures forall i, j :: 0 <= i < j < |bars| && bars[i].zeroLine ==> !bars[j].zeroLine
    ensures (exists i :: 0 <= i < |bars| && bars[i].zeroLine) <==>
            (exists i :: 0 <= i < |scores| && scores[i].score < 0.0)
    ensures |scores| > 0 && scores[0].score < 0.0 ==> bars[0].zeroLine
  {
    var zeroLinePassed := false;
    bars := [];
    for i := 0 to |scores|
      invariant |bars| == i
      invariant SharesOf(scores[..i], bars, scoreSpace, dataSpace)
      invariant ColorsOf(scores[..i], bars)
      invariant ZeroLinesOf(scores, bars)
      invariant zeroLinePassed <==> exists k :: 0 <= k < i && scores[k].score < 0.0
      invariant zeroLinePassed ==> exists k :: 0 <= k < i && bars[k].zeroLine
    {
      var score := scores[i].score;
      var ratio := Abs(score) / scoreSpace;
      var shouldPaintZeroLine := !zeroLinePassed && score < 0.0;
      if shouldPaintZeroLine {
        zeroLinePassed := true;
      }
      var bar := Bar(ratio, ratio * dataSpace, PartyColor(scores[i].partyAbbreviation), shouldPaintZeroLine);
      ExtendShares(scores, bars, i, scoreSpace, dataSpace, ratio, bar);
      ExtendColors(scores, bars, i, bar);
      assert bar.zeroLine == IsFirstNegative(scores, i);
      ExtendZeroLines(scores, bars, bar);
      ghost var prev := bars;
      bars := bars + [bar];
      assert forall k :: 0 <= k < i ==> bars[k] == prev[k];
    }
    assert scores[..|scores|] == scores;
  }

  /**
   * One chamber's chart as the component computes it: the aggregates, the
   * data space for the measured container width, and the bars with their
   * shares, party colours and zero-line flags.  The data
   * space always keeps room for the zero line, which is drawn only when some
   * score is negative: then the bar widths, their margins and the zero line
   * add up to the container width; otherwise they leave the zero line's width
   * empty.  Bar widths are the computed values, negative when the data space
   * is, which the browser would draw as 0 px.
   */
  method Render(scores: seq<Score>, startYear: int, width: Option<real>)
    returns (agg: Aggregates, bars: seq<Bar>)
    requires scores != [] ==> exists i :: 0 <= i < |scores| && scores[i].score != 0.0
    ensures agg.scoreSpace == ScoreSpace(scores)
    ensures agg.rCount == RCount(scores) && agg.dCount == DCount(scores)
    ensures agg.rSum == RSum(scores) && agg.dSum == DSum(scores)
    ensures agg.majority == Majority(agg.rCount, agg.dCount, startYear)
    ensures scores != [] ==> agg.scoreSpace > 0.0
    ensures |bars| == |scores|
    ensures SharesOf(scores, bars, agg.scoreSpace, DataSpace(width, |scores|))
    ensures ColorsOf(scores, bars)
    ensures forall i :: 0 <= i < |bars| ==> (bars[i].zeroLine <==> IsFirstNegative(scores, i))
    ensures (exists i :: 0 <= i < |bars| && bars[i].zeroLine) <==>
            (exists i :: 0 <= i < |scores| && scores[i].score < 0.0)
    ensures scores != [] && (exists i :: 0 <= i < |bars| && bars[i].zeroLine) ==>
      SumWidths(bars) + |bars| as real * BarMargin + ZeroLineWidth == width.GetOr(0.0)
    ensures scores != [] && !(exists i :: 0 <= i < |bars| && bars[i].zeroLine) ==>
      SumWidths(bars) + |bars| as real * BarMargin == width.GetOr(0.0) - ZeroLineWidth
  {
    agg := GetAggregates(scores, startYear);
    var dataSpace := DataSpace(width, |scores|);
    bars := RenderBars(scores, agg.scoreSpace, dataSpace);
    SharesAddUp(scores, bars, agg.scoreSpace, dataSpace);
  }
}

=== FILE: wrappers.dfy ===
/** Optional values: `undefined`, `null` and optional properties of the source. */
module Wrappers {

  datatype Option<+T> = None | Some(value: T) {

    /** The `??` operator: the held value, or `default` when there is none. */
    function GetOr(default: T): T {
      match this
      case Some(v) => v
      case None => default
    }
  }
}
